=== FILE: README.md ===
# selpg page selection, modelled in Dafny

selpg copies a range of pages `[startPage, endPage]` of a text stream to the console, or to
the input of a consumer process. A page is either `pageLength` lines (the default, 72) or, with
`-f`, one chunk of a file ended by a form feed. This project models the part of `selpg2.go`
that decides what gets written:

- `ProcessArgs`: validation of the start page, end page and page length into an exit code
  (module `Args`).
- The file reader in line-count mode. It stops at the first line past `endPage`. The
  standard-input scanner instead reads everything and writes its selection as one buffer
  (module `LineMode`).
- The file reader in form-feed mode (module `FormFeedMode`).
- The buffered-reader primitives these loops rely on, and the sink `printOrWrite`, which writes
  each unit followed by one newline (module `Text`).
- `main` as a whole: validation, then the mode the arguments choose (module `Selpg`).

Inputs are strings. Line mode sees them as lines split the way bufio's `ReadLine` and a line
`Scanner` split them. Form-feed mode sees them as the successive results of
`ReadString('\f')`. The file system, standard input and the consumer process are parameters of
`Selpg.Run`: the file's content (or that it cannot be opened), the standard-input text, and
whether the consumer's input pipe could be created.

Behaviour the model follows from the code, in places where one might expect otherwise:

- With standard input and an empty selection, the output is one newline, not empty output:
  the scanner's buffer is written through `printOrWrite` even when it is empty.
- The start-page check is `startPage < -1`. Because `-1` was rejected just before, this is the
  same as rejecting negative start pages.
- With standard input, `-f` is ignored and pages are counted in lines. The run is not rejected.
- Form-feed mode counts its chunks from the beginning of the file whatever `startPage` is.
  Only `endPage - startPage + 1` decides how many leading pages are written.

## Model

| member | source | states |
|---|---|---|
| `Args.ProcessArgs` | selpg2.go:55-77 | The exit code is 0, 1, 2 or 3. It is 0 exactly when 0 <= startPage <= endPage <= MaxInt32-1 and 1 <= pageLength <= MaxInt32-1. An unset page (-1) gives 1 whatever else is wrong. Otherwise 1 exactly for a bad start page. 2 exactly for a valid start with an end page out of range or before it. 3 exactly for valid pages with a page length out of range. |
| `Text.ReadString` | selpg2.go:105-109 | A delimited read succeeds exactly when the delimiter occurs. The chunk then ends with its first delimiter and holds no earlier one, and chunk plus unread rest is the input. At end of stream the whole remaining input comes back as the fragment. |
| `Text.FirstDelimiter` | selpg2.go:105 | The read stops at the first delimiter: `a + [c] + b` with no `c` in `a` reads as chunk `a + [c]` with `b` left unread. |
| `Text.Emit` | selpg2.go:161-166 | One call of `printOrWrite`: the unit followed by one newline. Both branches write these same bytes, so the console and the consumer pipe receive the same output. What it writes is stated by `Text.EmitReadsBackAsOneLine`, `Text.TerminateSnoc` and `Text.TerminateThenSplitLines`. |
| `Text.EmitReadsBackAsOneLine` | selpg2.go:163-165 | A unit with no newline of its own, once written, reads back as exactly one line, that unit. The newline the sink adds ends the line and adds nothing more. |
| `Text.Terminate` | selpg2.go:161-166 | The bytes the sink receives for a sequence of `printOrWrite` calls, in call order. Its properties are stated by `Text.TerminateShape`, `Text.TerminateConcat` and `Text.TerminateSnoc`. |
| `Text.TerminateShape` | selpg2.go:161-166 | The sink's output is at least one byte per unit, empty exactly when there are no units, and otherwise ends with a newline. |
| `Text.SplitLines` | selpg2.go:117-125 | Lines never contain a newline, and there are no lines exactly when the input is empty. |
| `Text.SplitLinesThenTerminate` | selpg2.go:141-143 | Writing each read line with a newline gives back the input. A missing final newline is supplied. |
| `Text.TerminateThenSplitLines` | selpg2.go:117-125 | Reading back newline-free lines written with a newline each gives exactly those lines. |
| `Text.TerminateConcat` | selpg2.go:161-166 | The sink's output for two runs of units is the output for the first followed by the output for the second. |
| `Text.TerminateSnoc` | selpg2.go:161-166 | Each further unit adds exactly that unit and one newline to the sink's output. |
| `Text.SplitPagesJoin` | selpg2.go:104-112 | Repeated form-feed reads lose nothing: the complete pages followed by the remainder concatenate back to the input. |
| `Text.SplitPagesComplete` | selpg2.go:105-109 | Every page the repeated reads yield ends in a form feed and holds no other. |
| `Text.SplitPagesRemainder` | selpg2.go:105-109 | The remainder left after the last complete page holds no form feed. |
| `Text.SplitPages` | selpg2.go:104-109 | Repeated `ReadString('\f')` calls until end of stream. There are no complete pages exactly when the input holds no form feed, and the remainder is never longer than the input. |
| `Text.ReadFirstPage` | selpg2.go:105 | Reading from a complete page followed by anything yields exactly that page and leaves the rest unread. |
| `Text.PagesOfJoin` | selpg2.go:105-109 | Any sequence of complete pages followed by a form-feed-free remainder is read back as exactly those pages and that remainder. |
| `LineMode.OnSelectedPage` | selpg2.go:126-127 | The page test on line `i`: startPage <= i / pageLength <= endPage. The same test appears at selpg2.go:144-145. Its arithmetic meaning is stated by `LineMode.PageBounds`. |
| `LineMode.SelectLines` | selpg2.go:144-149 | The full-scan filter over the page test, also used at selpg2.go:126-133. It selects no more lines than the input has, and every selected line is an input line. Its exact content is stated by `LineMode.SelectLinesIsSlice`. |
| `LineMode.PageBounds` | selpg2.go:126-127 | Line `i` is on a requested page (startPage <= i / pageLength <= endPage) exactly when startPage * pageLength <= i < (endPage + 1) * pageLength. |
| `LineMode.SliceBoundsStep` | selpg2.go:126-133 | When line `i` is read, the selected run grows by that line exactly when the line is on a requested page. Otherwise the run stays as it was, or stays empty. |
| `LineMode.SliceWidthBound` | selpg2.go:126-130 | The selected run spans at most (endPage - startPage + 1) * pageLength lines, and none for an empty range. |
| `LineMode.SelectLinesIsSlice` | selpg2.go:144-149 | The full-scan filter's output is one contiguous run of the input. It starts at the first line of startPage and stops after the last line of endPage, both clamped to the input. |
| `LineMode.SelectedLine` | selpg2.go:126-133 | Line `i` is forwarded exactly when its page is in range. The selection's length is the width of the run, and the forwarded lines keep their input order. |
| `LineMode.SelectedCountBound` | selpg2.go:126-130 | At most (endPage - startPage + 1) * pageLength lines are forwarded, and none for an empty range. |
| `LineMode.SelectionBeyondInput` | selpg2.go:126-133 | A range starting after the last line selects nothing. |
| `LineMode.TenLinesPagesOneToTwo` | selpg2.go:116-134 | With pageLength 3, pages 1 to 2 and ten lines, exactly the lines at indices 3 to 8 are forwarded. |
| `LineMode.PastEndPage` | selpg2.go:127-128 | Once a line's page is past endPage, no later line is selected. The lines read so far give the whole selection, so breaking out changes nothing. |
| `LineMode.SelectLinesStep` | selpg2.go:144-149 | Reading one more line extends the selection by that line exactly when it is on a requested page, and leaves it unchanged otherwise. |
| `LineMode.ReadFileLines` | selpg2.go:116-134 | The file reader with its early break writes exactly what the full-scan filter selects, each line followed by one newline. |
| `LineMode.ScanStdin` | selpg2.go:138-151 | The stdin scanner writes the selected lines, each followed by a newline, then one extra newline. With nothing selected it writes a single newline. |
| `FormFeedMode.FirstPages` | selpg2.go:103-114 | The pages written are a prefix of the file's complete pages. There are at most endPage - startPage + 1 of them, and fewer only when the file has no more. |
| `FormFeedMode.ReadNextPage` | selpg2.go:105-109 | At end of stream no complete page is left. Otherwise the chunk read is the next page and the unread rest holds the pages after it. |
| `FormFeedMode.ReadFormFeedPages` | selpg2.go:103-114 | The form-feed loop, counting from startPage to endPage and stopping at end of stream, writes the leading complete pages with one newline after each. |
| `FormFeedMode.ReadStep` | selpg2.go:104-113 | One turn of the loop, with `written` pages behind it: the read finds no page left exactly when all complete pages are written. Otherwise it yields page number `written` and leaves exactly the pages after it. |
| `FormFeedMode.LoopExit` | selpg2.go:104-109 | Whether the loop ends because the pages ran out or because the range was used up, the pages written so far are the leading endPage - startPage + 1 pages, or all of them when the file has fewer. This is what `FormFeedMode.FirstPages` selects. |
| `FormFeedMode.WriteNextPage` | selpg2.go:113 | Writing the next page extends the output by that page and a newline. |
| `FormFeedMode.WrittenPagesComplete` | selpg2.go:105-113 | Every written page ends with a form feed and holds no other. |
| `FormFeedMode.TrailingFragmentDropped` | selpg2.go:105-109 | For complete pages followed by an unterminated fragment, the leading pages are written and the fragment never is. |
| `FormFeedMode.NoFormFeedNoPages` | selpg2.go:105-109 | A file with no form feed writes nothing in this mode. |
| `FormFeedMode.OnlyRangeWidthMatters` | selpg2.go:104 | Two ranges of the same width write the same pages. The pages are counted from the start of the file, not from startPage. |
| `FormFeedMode.FivePagesFromPageTwo` | selpg2.go:104-113 | A file of five complete pages with pages 2 to 4 requested write the file's first three pages. |
| `Selpg.SinkFor` | selpg2.go:162 | The branch of `printOrWrite`: the console when -d is empty, the consumer otherwise. It is a definition with no contract. `Selpg.Run` states that the run writes to this sink, and `Selpg.DestChoosesOnlySink` states that -d changes nothing else. |
| `Selpg.Selection` | selpg2.go:94-151 | The bytes an accepted run writes in each input mode. It is a definition with no contract. `Selpg.Run` states that the run writes exactly these bytes. |
| `Selpg.DestChoosesOnlySink` | selpg2.go:55-77 | Two configurations that differ only in -d get the same validation code. When accepted, they write the same bytes, and only the sink differs. |
| `Selpg.SameSelection` | selpg2.go:126-127 | The line filter reads only the page range and the page length, so changing -d does not change which lines are selected. |
| `Selpg.Run` | selpg2.go:79-159 | A rejected configuration exits with its validation code. A missing consumer pipe, then an unopenable file, gives exit 1. Otherwise the sink is the console or the consumer as -d is empty or not. The bytes written are: the leading pages (form-feed file input), the selected lines (line-count file input), or the selected lines plus one newline (standard input, form-feed flag ignored). These are the bytes `Selpg.Selection` defines. |

## Left out

- Flag parsing, the default values, the usage text and the positional file argument
  (selpg2.go:25-53). The configuration is taken as already parsed. The reassignment
  `args.inFile = flag.Arg(0)` (selpg2.go:96) does not change it and is not modelled.
- Messages on the error stream and `os.Exit`. Exit codes are returned values.
- Spawning `cat -n`, writing to, closing and running it (selpg2.go:84-90, selpg2.go:154-158).
  The model records which sink receives the bytes. What the consumer prints is outside the
  model. The command is fixed whatever -d names.
- Selpg.Run: assumes every write to the consumer's pipe completes. In the program, the pipe is
  written (selpg2.go:163) before `cmd.Run()` starts the consumer (selpg2.go:157). Output larger
  than the operating system's pipe buffer would therefore block the program forever, and
  `Run` does not model that hang.
- Read errors other than end of stream (selpg2.go:110-111, selpg2.go:123-124), and `Err` of
  the scanner, which is never checked. These are I/O failures, and the model's reads always
  succeed.
- bufio details: `ReadLine` splitting over-long lines (its `isPrefix` result is ignored), the
  scanner's token-size limit, and the stripping of a `\r` before a newline. Lines are split at
  `\n` only.
- Go's `int` width: the line counter and page numbers are unbounded here. Validation keeps
  pages and the page length below MaxInt32, so the form-feed counter cannot overflow on any
  platform. On 64-bit platforms only inputs of more than 2^63 lines would make the line
  counter wrap.
- The line counter on 32-bit platforms (e.g. GOARCH 386 or arm): there `int` is 32 bits wide.
  The line counter (selpg2.go:116, selpg2.go:139) becomes negative after 2^31 lines. Go's
  division truncates toward zero (selpg2.go:126, selpg2.go:144), so lines whose counter is at
  or below -pageLength get a negative page and are skipped. Lines whose counter lies between
  -pageLength and 0 get page 0. After 2^32 lines the counter is 0 again, and selection starts
  over. The model counts lines without a bound.
- Text.SplitLines: its contract gives only the shape of the result. The lines themselves are
  characterised by the two round-trip lemmas.

=== FILE: args.dfy ===
/** The command-line configuration of selpg and its validation into an exit code. */
module Args {

  /** Go's math.MaxInt32; valid page numbers and lengths stay strictly below it. */
  const MaxInt32: int := 0x7fff_ffff

  /** The value the page flags hold when the user did not give them. */
  const Unset: int := -1

  /** The parsed arguments. `inFile` empty means standard input; `dest` non-empty
      means the output is piped to a consumer process. `pageLength` defaults to 72. */
  datatype Config = Config(
    startPage: int,
    endPage: int,
    inFile: string,
    dest: string,
    pageLength: int,
    formFeed: bool)

  /** A configuration selection may run on: both pages set and in order below
      MaxInt32, and a page length between 1 and MaxInt32 - 1. */
  predicate Accepted(a: Config)
  {
    0 <= a.startPage <= a.endPage <= MaxInt32 - 1
    && 1 <= a.pageLength <= MaxInt32 - 1
  }

  /** The number of pages in the requested range, zero when the range is empty. */
  function PageBudget(a: Config): (n: nat)
    ensures n > 0 <==> a.startPage <= a.endPage
    ensures a.startPage <= a.endPage ==> a.startPage + n - 1 == a.endPage
  {
    if a.startPage <= a.endPage then a.endPage - a.startPage + 1 else 0
  }

  /** The exit code of argument validation: 0 accepts. Unset pages and a bad start
      page give 1, a bad end page gives 2, a bad page length gives 3, and the first
      failing check in that order decides the code. */
  function ProcessArgs(a: Config): (code: int)
    ensures code == 0 || code == 1 || code == 2 || code == 3
    ensures code == 0 <==> Accepted(a)
    // an unset page wins over every other complaint
    ensures a.startPage == Unset || a.endPage == Unset ==> code == 1
    ensures code == 1 <==> a.startPage < 0 || a.startPage > MaxInt32 - 1 || a.endPage == Unset
    ensures code == 2 <==>
              0 <= a.startPage <= MaxInt32 - 1 && a.endPage != Unset
              && !(a.startPage <= a.endPage <= MaxInt32 - 1)
    ensures code == 3 <==>
              0 <= a.startPage <= a.endPage <= MaxInt32 - 1
              && !(1 <= a.pageLength <= MaxInt32 - 1)
  {
    if a.startPage == Unset || a.endPage == Unset then 1
    else if a.startPage < -1 || a.startPage > MaxInt32 - 1 then 1
    else if a.endPage < -1 || a.endPage > MaxInt32 - 1 || a.endPage < a.startPage then 2
    else if a.pageLength < 1 || a.pageLength > MaxInt32 - 1 then 3
    else 0
  }
}

=== FILE: formfeed.dfy ===
/** Form-feed pages (file input only): the page counter runs from startPage to
    endPage, and each turn reads the next '\f'-terminated chunk of the file and
    writes it through the sink, stopping at end of stream. The chunks are read
    from the start of the file whatever startPage is, and a final chunk with no
    closing form feed is never written. */
module FormFeedMode {
  import opened Text
  import opened Args

  /** The pages form-feed mode writes: the leading complete pages of the file,
      as many as the requested range has pages, fewer when the file runs out. */
  function FirstPages(content: string, a: Config): (pages: seq<string>)
    ensures |pages| <= PageBudget(a)
    ensures pages <= SplitPages(content).chunks
    ensures |pages| == PageBudget(a) || pages == SplitPages(content).chunks
  {
    var chunks := SplitPages(content).chunks;
    if PageBudget(a) < |chunks| then chunks[..PageBudget(a)] else chunks
  }

  /** One read of the next '\f'-terminated chunk: at end of stream no complete
      page is left, otherwise the chunk read is the next page and the unread rest
      holds the pages after it. */
  lemma ReadNextPage(rest: string)
    ensures ReadString(rest, FormFeed).Eof? ==> |SplitPages(rest).chunks| == 0
    ensures ReadString(rest, FormFeed).Delimited? ==>
              |SplitPages(rest).chunks| > 0
              && SplitPages(rest).chunks[0] == ReadString(rest, FormFeed).chunk
              && SplitPages(ReadString(rest, FormFeed).rest)
                 == Pages(SplitPages(rest).chunks[1..], SplitPages(rest).rest)
  {
  }

  /** The form-feed loop of the file reader. */
  method ReadFormFeedPages(content: string, a: Config) returns (out: string)
    ensures out == Terminate(FirstPages(content, a))
  {
    ghost var chunks := SplitPages(content).chunks;
    ghost var fragment := SplitPages(content).rest;
    ghost var written: nat := 0;
    out := "";
    var rest := content;
    var pageNum := a.startPage;
    while pageNum <= a.endPage
      invariant pageNum == a.startPage + written
      invariant written <= |chunks| && written <= PageBudget(a)
      invariant SplitPages(rest) == Pages(chunks[written..], fragment)
      invariant out == Terminate(chunks[..written])
      decreases a.endPage - pageNum
    {
      var r := ReadString(rest, FormFeed);
      ReadStep(rest, chunks, fragment, written);
      if r.Eof? {
        // the unread rest holds no complete page: every page has been written
        break;
      }
      WriteNextPage(chunks, written, r.chunk);
      out := out + Emit(r.chunk);
      rest := r.rest;
      pageNum := pageNum + 1;
      written := written + 1;
    }
    LoopExit(chunks, PageBudget(a), written);
  }

  /** One turn of the loop, in terms of the pages still unread: `written` pages
      are behind it, and the read either finds none left or yields page `written`
      and leaves the pages after it. */
  lemma ReadStep(rest: string, chunks: seq<string>, fragment: string, written: nat)
    requires written <= |chunks|
    ensures SplitPages(rest) == Pages(chunks[written..], fragment) ==>
              (ReadString(rest, FormFeed).Eof? ==> written == |chunks|)
    ensures SplitPages(rest) == Pages(chunks[written..], fragment) ==>
              (ReadString(rest, FormFeed).Delimited? ==>
                 written < |chunks| && chunks[written] == ReadString(rest, FormFeed).chunk
                 && SplitPages(ReadString(rest, FormFeed).rest)
                    == Pages(chunks[written + 1..], fragment))
  {
    ReadNextPage(rest);
    if written < |chunks| {
      assert chunks[written..][1..] == chunks[written + 1..];
    }
  }

  /** The loop stops when the pages run out or the range is used up; either way
      the pages written so far are the leading `budget` pages, or all of them
      when there are fewer. */
  lemma LoopExit(chunks: seq<string>, budget: nat, written: nat)
    requires written <= |chunks| && written <= budget
    requires written == |chunks| || written == budget
    ensures chunks[..written] == if budget < |chunks| then chunks[..budget] else chunks
  {
  }

  lemma WriteNextPage(chunks: seq<string>, written: nat, chunk: string)
    requires written < |chunks| && chunks[written] == chunk
    ensures Terminate(chunks[..written + 1]) == Terminate(chunks[..written]) + Emit(chunk)
  {
    assert chunks[..written + 1] == chunks[..written] + [chunk];
    TerminateSnoc(chunks[..written], chunk);
  }

  /** Every written page is complete: it ends with its form feed and holds no
      other. */
  lemma WrittenPagesComplete(content: string, a: Config, k: nat)
    requires k < |FirstPages(content, a)|
    ensures IsPage(FirstPages(content, a)[k])
  {
    SplitPagesComplete(content);
    assert FirstPages(content, a)[k] == SplitPages(content).chunks[k];
  }

  /** For a file made of complete pages followed by an unterminated fragment, the
      mode writes the leading pages and never the fragment, whatever it holds. */
  lemma TrailingFragmentDropped(chunks: seq<string>, rest: string, a: Config)
    requires forall k :: 0 <= k < |chunks| ==> IsPage(chunks[k])
    requires FormFeed !in rest
    ensures FirstPages(Join(chunks) + rest, a)
            == if PageBudget(a) < |chunks| then chunks[..PageBudget(a)] else chunks
  {
    PagesOfJoin(chunks, rest);
  }

  /** A file with no form feed at all writes nothing in this mode. */
  lemma NoFormFeedNoPages(content: string, a: Config)
    requires FormFeed !in content
    ensures FirstPages(content, a) == []
  {
  }

  /** The written pages do not depend on where the range starts, only on how many
      pages it spans: asking for pages 2 to 4 writes the same pages as asking for
      pages 0 to 2. */
  lemma OnlyRangeWidthMatters(content: string, a: Config, b: Config)
    requires PageBudget(a) == PageBudget(b)
    ensures FirstPages(content, a) == FirstPages(content, b)
  {
  }

  /** A file of five complete pages with pages 2 to 4 requested: the first three
      pages of the file are written, not pages 2, 3 and 4. */
  lemma FivePagesFromPageTwo(chunks: seq<string>, a: Config)
    requires |chunks| == 5 && forall k :: 0 <= k < 5 ==> IsPage(chunks[k])
    requires a.startPage == 2 && a.endPage == 4
    ensures FirstPages(Join(chunks), a) == chunks[..3]
  {
    assert Join(chunks) + "" == Join(chunks);
    TrailingFragmentDropped(chunks, "", a);
  }
}

=== FILE: linemode.dfy ===
/** Line-count pages: line `i` (0-based) lies on page `i / pageLength`, and the
    lines whose page falls in [startPage, endPage] are forwarded in input order.
    The file reader stops at the first line past endPage; the standard-input
    scanner reads everything and hands the selection to the sink as one unit. */
module LineMode {
  import opened Text
  import opened Args

  /** True when line `i` lies on a requested page. The line counter is never
      negative and the page length is positive, so Go's truncating division and
      Dafny's Euclidean one agree here. */
  predicate OnSelectedPage(i: nat, a: Config)
    requires a.pageLength >= 1
  {
    a.startPage <= i / a.pageLength <= a.endPage
  }

  /** The full-scan filter: every line whose page is requested, in input order. */
  function SelectLines(lines: seq<string>, a: Config): (sel: seq<string>)
    requires a.pageLength >= 1
    ensures |sel| <= |lines|
    ensures forall k :: 0 <= k < |sel| ==> sel[k] in lines
    decreases |lines|
  {
    if |lines| == 0 then []
    else
      var i := |lines| - 1;
      SelectLines(lines[..i], a) + (if OnSelectedPage(i, a) then [lines[i]] else [])
  }

  /** Index of the first line of page startPage, clamped into the input. */
  function FirstSelected(n: nat, a: Config): (lo: nat)
    ensures lo <= n
  {
    var first := if a.startPage * a.pageLength < 0 then 0 else a.startPage * a.pageLength;
    if first < n then first else n
  }

  /** Index one past the last line of page endPage, clamped into the input and
      never below FirstSelected. */
  function PastSelected(n: nat, a: Config): (hi: nat)
    ensures FirstSelected(n, a) <= hi <= n
  {
    var lo := FirstSelected(n, a);
    var past := (a.endPage + 1) * a.pageLength;
    if past < lo then lo else if past < n then past else n
  }

  /** Arithmetic helpers for the page computation. */
  lemma MulMonotone(x: int, y: int, k: nat)
    requires x <= y
    ensures x * k <= y * k
  {
  }

  lemma DivMonotone(x: nat, y: nat, k: int)
    requires k >= 1 && x <= y
    ensures x / k <= y / k
  {
    var qx, qy := x / k, y / k;
    if qx > qy {
      MulMonotone(qy + 1, qx, k);
    }
  }

  lemma Distribute(x: int, y: int, k: int)
    ensures (x - y) * k == x * k - y * k
  {
  }

  /** A line is on a requested page exactly when its index lies between the first
      line of startPage and the first line after endPage. */
  lemma PageBounds(i: nat, a: Config)
    requires a.pageLength >= 1
    ensures OnSelectedPage(i, a) <==>
              a.startPage * a.pageLength <= i < (a.endPage + 1) * a.pageLength
  {
    var len := a.pageLength;
    var q, r := i / len, i % len;
    assert i == q * len + r && 0 <= r < len;
    if a.startPage <= q {
      MulMonotone(a.startPage, q, len);
    } else {
      MulMonotone(q + 1, a.startPage, len);
    }
    if q <= a.endPage {
      MulMonotone(q + 1, a.endPage + 1, len);
    } else {
      MulMonotone(a.endPage + 1, q, len);
    }
  }

  /** How the clamped run moves when the input grows by line `i`: a selected line
      extends it by one, any other line leaves it unchanged or keeps it empty. */
  lemma SliceBoundsStep(i: nat, a: Config)
    requires a.pageLength >= 1
    ensures OnSelectedPage(i, a) ==>
              FirstSelected(i + 1, a) == FirstSelected(i, a)
              && PastSelected(i, a) == i && PastSelected(i + 1, a) == i + 1
    ensures !OnSelectedPage(i, a) ==>
              (FirstSelected(i, a) == PastSelected(i, a)
               && FirstSelected(i + 1, a) == PastSelected(i + 1, a))
              || (FirstSelected(i + 1, a) == FirstSelected(i, a)
                  && PastSelected(i + 1, a) == PastSelected(i, a))
  {
    PageBounds(i, a);
  }

  /** The clamped run spans at most pageLength lines per requested page. */
  lemma SliceWidthBound(n: nat, a: Config)
    requires a.pageLength >= 1
    ensures PastSelected(n, a) - FirstSelected(n, a) <= PageBudget(a) * a.pageLength
  {
    if a.startPage <= a.endPage {
      Distribute(a.endPage + 1, a.startPage, a.pageLength);
    } else {
      MulMonotone(a.endPage + 1, a.startPage, a.pageLength);
    }
  }

  /** The selection is one contiguous run of the input: the lines from the first
      line of startPage up to the last line of endPage, as far as the input goes. */
  lemma {:induction false} SelectLinesIsSlice(lines: seq<string>, a: Config)
    requires a.pageLength >= 1
    ensures SelectLines(lines, a)
            == lines[FirstSelected(|lines|, a)..PastSelected(|lines|, a)]
    decreases |lines|
  {
    if |lines| > 0 {
      var i := |lines| - 1;
      SelectLinesIsSlice(lines[..i], a);
      SliceBoundsStep(i, a);
      var lo, hi := FirstSelected(i, a), PastSelected(i, a);
      assert lines[..i][lo..hi] == lines[lo..hi];
      if OnSelectedPage(i, a) {
        assert lines[lo..i + 1] == lines[lo..i] + [lines[i]];
      } else {
        assert SelectLines(lines, a) == SelectLines(lines[..i], a) + [];
      }
    }
  }

  /** Line `i` is forwarded exactly when it lies on a requested page, and the
      forwarded lines keep their input order: the k-th forwarded line is the line
      at index FirstSelected + k. */
  lemma SelectedLine(lines: seq<string>, a: Config, i: nat)
    requires a.pageLength >= 1
    requires i < |lines|
    ensures OnSelectedPage(i, a) <==>
              FirstSelected(|lines|, a) <= i < PastSelected(|lines|, a)
    ensures |SelectLines(lines, a)| == PastSelected(|lines|, a) - FirstSelected(|lines|, a)
    ensures OnSelectedPage(i, a) ==>
              SelectLines(lines, a)[i - FirstSelected(|lines|, a)] == lines[i]
  {
    PageBounds(i, a);
    SelectLinesIsSlice(lines, a);
  }

  /** At most pageLength lines per requested page are forwarded. */
  lemma SelectedCountBound(lines: seq<string>, a: Config)
    requires a.pageLength >= 1
    ensures |SelectLines(lines, a)| <= PageBudget(a) * a.pageLength
  {
    SelectLinesIsSlice(lines, a);
    SliceWidthBound(|lines|, a);
  }

  /** A range starting beyond the last line selects nothing. */
  lemma SelectionBeyondInput(lines: seq<string>, a: Config)
    requires a.pageLength >= 1
    requires a.startPage * a.pageLength >= |lines|
    ensures SelectLines(lines, a) == []
  {
    SelectLinesIsSlice(lines, a);
  }

  /** Three lines per page, pages 1 to 2, ten lines: the lines at indices 3 to 8
      are forwarded. */
  lemma TenLinesPagesOneToTwo(lines: seq<string>, a: Config)
    requires |lines| == 10
    requires a.pageLength == 3 && a.startPage == 1 && a.endPage == 2
    ensures SelectLines(lines, a) == lines[3..9]
  {
    SelectLinesIsSlice(lines, a);
  }

  /** Once line `count` is past endPage, so is every later line: the lines already
      seen are the whole selection. */
  lemma {:induction false} PastEndPage(lines: seq<string>, a: Config, count: nat)
    requires a.pageLength >= 1
    requires count <= |lines|
    requires count / a.pageLength > a.endPage
    ensures SelectLines(lines, a) == SelectLines(lines[..count], a)
    decreases |lines|
  {
    if |lines| > count {
      var i := |lines| - 1;
      assert lines[..i][..count] == lines[..count];
      PastEndPage(lines[..i], a, count);
      DivMonotone(count, i, a.pageLength);
    } else {
      assert lines[..count] == lines;
    }
  }

  /** Reading one more line extends the selection by that line exactly when it
      lies on a requested page. */
  lemma SelectLinesStep(lines: seq<string>, a: Config, count: nat)
    requires a.pageLength >= 1
    requires count < |lines|
    ensures OnSelectedPage(count, a) ==>
              SelectLines(lines[..count + 1], a) == SelectLines(lines[..count], a) + [lines[count]]
    ensures !OnSelectedPage(count, a) ==>
              SelectLines(lines[..count + 1], a) == SelectLines(lines[..count], a)
  {
    assert lines[..count + 1][..count] == lines[..count];
    assert SelectLines(lines[..count], a) + [] == SelectLines(lines[..count], a);
  }

  /** The file reader: reads line after line, forwards those on requested pages
      through the sink, and stops at the first line whose page is past endPage. */
  method ReadFileLines(lines: seq<string>, a: Config) returns (out: string)
    requires a.pageLength >= 1
    ensures out == Terminate(SelectLines(lines, a))
  {
    out := "";
    var count := 0;
    while count < |lines|
      invariant count <= |lines|
      invariant out == Terminate(SelectLines(lines[..count], a))
    {
      var line := lines[count];
      SelectLinesStep(lines, a, count);
      var page := count / a.pageLength;
      if page >= a.startPage {
        if page > a.endPage {
          PastEndPage(lines, a, count);
          break;
        } else {
          TerminateSnoc(SelectLines(lines[..count], a), line);
          out := out + Emit(line);
        }
      }
      count := count + 1;
    }
    if count == |lines| {
      assert lines[..count] == lines;
    }
  }

  /** The standard-input scanner: reads every line, appends each requested one
      with a newline to a single buffer, and writes that buffer through the sink
      once, which adds one more newline even when nothing was selected. */
  method ScanStdin(lines: seq<string>, a: Config) returns (out: string)
    requires a.pageLength >= 1
    ensures out == Terminate(SelectLines(lines, a)) + "\n"
    ensures |SelectLines(lines, a)| == 0 ==> out == "\n"
  {
    var target := "";
    var count := 0;
    while count < |lines|
      invariant count <= |lines|
      invariant target == Terminate(SelectLines(lines[..count], a))
    {
      var line := lines[count] + "\n";
      SelectLinesStep(lines, a, count);
      var page := count / a.pageLength;
      if page >= a.startPage {
        if page <= a.endPage {
          TerminateSnoc(SelectLines(lines[..count], a), lines[count]);
          target := target + line;
        }
      }
      count := count + 1;
    }
    assert lines[..count] == lines;
    out := Emit(target);
  }
}

=== FILE: selpg.dfy ===
/** The whole run of selpg: validate the arguments, then read the input in the
    mode the arguments choose and write the selection through the sink. The file
    system, the standard-input stream and the consumer process are parameters:
    the content of the named file (or its failure to open), the standard-input
    text, and whether the consumer's input pipe could be set up. */
module Selpg {
  import opened Text
  import opened Args
  import LineMode
  import FormFeedMode

  /** Where the written bytes go. The consumer is always `cat -n`: the value of
      the -d flag only decides whether a consumer is used, never which one. */
  datatype Sink = Console | Consumer

  /** The result of one run: a non-zero exit code before anything is written, or
      exit code 0 with the bytes written to the sink. */
  datatype Outcome = Exit(code: int) | Written(sink: Sink, bytes: string)

  /** The named input file as the run finds it. */
  datatype InputFile = Unopenable | Opened(content: string)

  /** The sink the run writes to: the console exactly when -d is empty. */
  function SinkFor(a: Config): Sink
  {
    if a.dest == "" then Console else Consumer
  }

  /** The bytes an accepted run writes, whichever sink receives them: the leading
      pages (form-feed file input), the selected lines (line-count file input), or
      the selected lines and one more newline (standard input). */
  function Selection(a: Config, file: InputFile, stdin: string): string
    requires a.pageLength >= 1
    requires a.inFile != "" ==> file.Opened?
  {
    if a.inFile == "" then Terminate(LineMode.SelectLines(SplitLines(stdin), a)) + "\n"
    else if a.formFeed then Terminate(FormFeedMode.FirstPages(file.content, a))
    else Terminate(LineMode.SelectLines(SplitLines(file.content), a))
  }

  /** The -d flag only chooses the sink: two configurations that differ in -d
      alone are validated alike and, when accepted, write the same bytes. */
  lemma DestChoosesOnlySink(a: Config, b: Config, file: InputFile, stdin: string)
    requires b == a.(dest := b.dest)
    ensures ProcessArgs(a) == ProcessArgs(b)
    ensures Accepted(a) && (a.inFile != "" ==> file.Opened?) ==>
              Selection(a, file, stdin) == Selection(b, file, stdin)
  {
    if Accepted(a) && (a.inFile != "" ==> file.Opened?) {
      var input := if a.inFile == "" then stdin else file.content;
      SameSelection(SplitLines(input), a, b);
    }
  }

  /** The line filter reads only the page range and the page length. */
  lemma SameSelection(lines: seq<string>, a: Config, b: Config)
    requires a.pageLength >= 1
    requires b == a.(dest := b.dest)
    ensures LineMode.SelectLines(lines, a) == LineMode.SelectLines(lines, b)
  {
    LineMode.SelectLinesIsSlice(lines, a);
    LineMode.SelectLinesIsSlice(lines, b);
    assert LineMode.FirstSelected(|lines|, a) == LineMode.FirstSelected(|lines|, b);
    assert LineMode.PastSelected(|lines|, a) == LineMode.PastSelected(|lines|, b);
  }

  /** main: ProcessArgs, then ProcessInput. */
  method Run(a: Config, pipeReady: bool, file: InputFile, stdin: string) returns (r: Outcome)
    // a rejected configuration exits with its validation code and writes nothing
    ensures ProcessArgs(a) != 0 ==> r == Exit(ProcessArgs(a))
    // setting up the consumer comes first, opening the file second
    ensures Accepted(a) && a.dest != "" && !pipeReady ==> r == Exit(1)
    ensures Accepted(a) && (a.dest == "" || pipeReady) && a.inFile != "" && file.Unopenable? ==>
              r == Exit(1)
    ensures r.Exit? ==> r.code != 0
    ensures r.Written? <==>
              Accepted(a) && (a.dest == "" || pipeReady) && (a.inFile == "" || file.Opened?)
    ensures r.Written? ==> r.sink == SinkFor(a) && r.bytes == Selection(a, file, stdin)
    // form-feed file input: the leading complete pages, one newline after each
    ensures r.Written? && a.inFile != "" && a.formFeed ==>
              r.bytes == Terminate(FormFeedMode.FirstPages(file.content, a))
    // line-count file input: the selected lines, one newline after each
    ensures r.Written? && a.inFile != "" && !a.formFeed ==>
              r.bytes == Terminate(LineMode.SelectLines(SplitLines(file.content), a))
    // standard input ignores the form-feed flag and adds one newline at the end
    ensures r.Written? && a.inFile == "" ==>
              r.bytes == Terminate(LineMode.SelectLines(SplitLines(stdin), a)) + "\n"
  {
    var code := ProcessArgs(a);
    if code != 0 {
      return Exit(code);
    }
    if a.dest != "" && !pipeReady {
      return Exit(1);
    }
    var bytes;
    if a.inFile != "" {
      if file.Unopenable? {
        return Exit(1);
      }
      if a.formFeed {
        bytes := FormFeedMode.ReadFormFeedPages(file.content, a);
      } else {
        bytes := LineMode.ReadFileLines(SplitLines(file.content), a);
      }
    } else {
      bytes := LineMode.ScanStdin(SplitLines(stdin), a);
    }
    r := Written(SinkFor(a), bytes);
  }
}

=== FILE: text.dfy ===
/** The text-stream primitives selpg relies on: the delimiter-terminated read of a
    buffered reader (used with FormFeed for form-feed pages and with '\n' for lines),
    the line splitting shared by the file reader and the standard-input scanner,
    and the output sink that writes every unit followed by one newline. */
module Text {

  /** The form-feed control character that ends a page in form-feed mode. */
  const FormFeed: char := '\U{000C}'

  /** Position of the first occurrence of `c` in `s`. */
  function IndexOf(s: string, c: char): (i: nat)
    requires c in s
    ensures i < |s| && s[i] == c
    ensures c !in s[..i]
  {
    if s[0] == c then 0
    else
      assert c in s[1..] by {
        var k :| 0 <= k < |s| && s[k] == c;
        assert s[1..][k - 1] == c;
      }
      var j := IndexOf(s[1..], c);
      assert s[..j + 1] == [s[0]] + s[1..][..j];
      j + 1
  }

  /** What one call of a delimiter-terminated read returns: either a chunk that
      ends with the delimiter, together with the unread rest, or the end of the
      stream together with the fragment read before it. */
  datatype Read = Delimited(chunk: string, rest: string) | Eof(fragment: string)

  /** Reading up to and including the first `delim`; with no `delim` left the read
      reports end of stream and hands back whatever it consumed. */
  function ReadString(s: string, delim: char): (r: Read)
    ensures r.Delimited? <==> delim in s
    ensures r.Delimited? ==>
              r.chunk + r.rest == s && |r.chunk| > 0
              && r.chunk[|r.chunk| - 1] == delim
              && delim !in r.chunk[..|r.chunk| - 1]
    ensures r.Eof? ==> r.fragment == s
  {
    if delim in s then
      var i := IndexOf(s, delim);
      assert s[..i + 1][..i] == s[..i];
      assert s[..i + 1] + s[i + 1..] == s;
      Delimited(s[..i + 1], s[i + 1..])
    else Eof(s)
  }

  /** The sink: one unit written followed by a single newline. The console and the
      consumer's input pipe receive the same bytes. */
  function Emit(unit: string): string
  {
    unit + "\n"
  }

  /** The bytes the sink receives for a sequence of units, in order. */
  function Terminate(units: seq<string>): string
  {
    if |units| == 0 then "" else Emit(units[0]) + Terminate(units[1..])
  }

  /** Plain concatenation, without the sink's newlines. */
  function Join(units: seq<string>): string
  {
    if |units| == 0 then "" else units[0] + Join(units[1..])
  }

  /** The sink's output is at least one byte per unit, empty only when there are
      no units, and otherwise ends with a newline. */
  lemma {:induction false} TerminateShape(units: seq<string>)
    ensures |Terminate(units)| >= |units|
    ensures |Terminate(units)| == 0 <==> |units| == 0
    ensures |units| > 0 ==> Terminate(units)[|Terminate(units)| - 1] == '\n'
    decreases |units|
  {
    if |units| > 0 {
      TerminateShape(units[1..]);
    }
  }

  lemma {:induction false} TerminateConcat(a: seq<string>, b: seq<string>)
    ensures Terminate(a + b) == Terminate(a) + Terminate(b)
    decreases |a|
  {
    if |a| == 0 {
      assert a + b == b;
    } else {
      assert (a + b)[1..] == a[1..] + b;
      TerminateConcat(a[1..], b);
    }
  }

  /** Writing one more unit appends exactly that unit and one newline. */
  lemma TerminateSnoc(units: seq<string>, u: string)
    ensures Terminate(units + [u]) == Terminate(units) + Emit(u)
  {
    TerminateConcat(units, [u]);
    assert [u][1..] == [];
  }

  /** True when no element of `units` contains `c`. */
  predicate NoneContain(units: seq<string>, c: char)
  {
    forall k :: 0 <= k < |units| ==> c !in units[k]
  }

  /** The lines a line reader (bufio's ReadLine, or a Scanner splitting on lines)
      yields: the text between newlines with the newline removed, plus a final line
      when the input does not end with a newline. */
  function SplitLines(s: string): (lines: seq<string>)
    ensures NoneContain(lines, '\n')
    ensures |lines| == 0 <==> |s| == 0
    decreases |s|
  {
    match ReadString(s, '\n')
    case Delimited(chunk, rest) =>
      var line := chunk[..|chunk| - 1];
      [line] + SplitLines(rest)
    case Eof(fragment) =>
      if |fragment| == 0 then [] else [fragment]
  }

  /** Splitting and then writing every line followed by a newline restores the
      input, except that a missing final newline is supplied. */
  lemma {:induction false} SplitLinesThenTerminate(s: string)
    ensures Terminate(SplitLines(s)) == if |s| == 0 || s[|s| - 1] == '\n' then s else s + "\n"
    decreases |s|
  {
    var r := ReadString(s, '\n');
    if r.Delimited? {
      var line := r.chunk[..|r.chunk| - 1];
      var tail := SplitLines(r.rest);
      assert r.chunk == line + "\n";
      assert SplitLines(s) == [line] + tail;
      assert ([line] + tail)[1..] == tail;
      assert Terminate(SplitLines(s)) == r.chunk + Terminate(tail);
      SplitLinesThenTerminate(r.rest);
      if |r.rest| > 0 {
        assert s[|s| - 1] == r.rest[|r.rest| - 1];
      }
    } else if |s| > 0 {
      assert s[|s| - 1] in s;
      assert SplitLines(s) == [s];
      assert [s][1..] == [];
    }
  }

  /** A read stops at the first delimiter: when `a` holds no `c`, reading
      `a + [c] + b` yields the chunk `a + [c]` and leaves `b` unread. */
  lemma FirstDelimiter(a: string, c: char, b: string)
    requires c !in a
    ensures ReadString(a + [c] + b, c) == Delimited(a + [c], b)
  {
    var s := a + [c] + b;
    assert s[|a|] == c;
    var i := IndexOf(s, c);
    assert forall k :: 0 <= k < |a| ==> s[k] == a[k];
    assert forall j :: |a| < j <= |s| ==> s[..j][|a|] == c;
    assert i == |a|;
    assert s[..i + 1] == a + [c];
    assert s[i + 1..] == b;
  }

  /** Writing lines that hold no newline and splitting the result gives back
      exactly those lines. */
  lemma {:induction false} TerminateThenSplitLines(lines: seq<string>)
    requires NoneContain(lines, '\n')
    ensures SplitLines(Terminate(lines)) == lines
    decreases |lines|
  {
    if |lines| > 0 {
      var tail := Terminate(lines[1..]);
      assert Terminate(lines) == lines[0] + ['\n'] + tail;
      FirstDelimiter(lines[0], '\n', tail);
      assert (lines[0] + ['\n'])[..|lines[0]|] == lines[0];
      TerminateThenSplitLines(lines[1..]);
    }
  }

  /** One written unit without a newline of its own reads back as exactly one
      line: the newline the sink adds is the line's terminator and nothing more. */
  lemma EmitReadsBackAsOneLine(unit: string)
    requires '\n' !in unit
    ensures SplitLines(Emit(unit)) == [unit]
  {
    assert Emit(unit) == unit + ['\n'] + "";
    FirstDelimiter(unit, '\n', "");
    assert (unit + ['\n'])[..|unit|] == unit;
  }

  /** A stream cut into form-feed pages: every complete page, each still ending in
      its FormFeed, and the unterminated remainder after the last one. */
  datatype Pages = Pages(chunks: seq<string>, rest: string)

  /** True when `chunk` ends with FormFeed and holds no other FormFeed. */
  predicate IsPage(chunk: string)
  {
    |chunk| > 0 && chunk[|chunk| - 1] == FormFeed && FormFeed !in chunk[..|chunk| - 1]
  }

  /** The successive results of reading FormFeed-terminated chunks until end of
      stream. */
  function SplitPages(s: string): (p: Pages)
    ensures |p.chunks| == 0 <==> FormFeed !in s
    ensures |p.rest| <= |s|
    decreases |s|
  {
    match ReadString(s, FormFeed)
    case Delimited(chunk, rest) =>
      var tail := SplitPages(rest);
      Pages([chunk] + tail.chunks, tail.rest)
    case Eof(fragment) => Pages([], fragment)
  }

  /** The form-feed reader loses nothing: its complete pages followed by the
      remainder concatenate back to the input. */
  lemma {:induction false} SplitPagesJoin(s: string)
    ensures Join(SplitPages(s).chunks) + SplitPages(s).rest == s
    decreases |s|
  {
    var r := ReadString(s, FormFeed);
    if r.Delimited? {
      SplitPagesJoin(r.rest);
      var tail := SplitPages(r.rest);
      var chunks := [r.chunk] + tail.chunks;
      assert SplitPages(s) == Pages(chunks, tail.rest);
      assert chunks[1..] == tail.chunks;
    }
  }

  /** Every page the form-feed reader yields ends in its only form feed. */
  lemma {:induction false} SplitPagesComplete(s: string)
    ensures forall k :: 0 <= k < |SplitPages(s).chunks| ==> IsPage(SplitPages(s).chunks[k])
    decreases |s|
  {
    var r := ReadString(s, FormFeed);
    if r.Delimited? {
      SplitPagesComplete(r.rest);
      var tail := SplitPages(r.rest);
      var chunks := [r.chunk] + tail.chunks;
      assert SplitPages(s) == Pages(chunks, tail.rest);
      assert chunks[1..] == tail.chunks;
    }
  }

  /** The remainder after the last complete page holds no form feed. */
  lemma {:induction false} SplitPagesRemainder(s: string)
    ensures FormFeed !in SplitPages(s).rest
    decreases |s|
  {
    var r := ReadString(s, FormFeed);
    if r.Delimited? {
      SplitPagesRemainder(r.rest);
      var tail := SplitPages(r.rest);
      var chunks := [r.chunk] + tail.chunks;
      assert SplitPages(s) == Pages(chunks, tail.rest);
      assert chunks[1..] == tail.chunks;
    }
  }

  /** The form-feed reader gives back the input, split at its form feeds, with
      nothing lost and nothing reordered: the complete pages are exactly the
      FormFeed-terminated chunks of the input. */
  lemma {:induction false} PagesOfJoin(chunks: seq<string>, rest: string)
    requires forall k :: 0 <= k < |chunks| ==> IsPage(chunks[k])
    requires FormFeed !in rest
    ensures SplitPages(Join(chunks) + rest) == Pages(chunks, rest)
    decreases |chunks|
  {
    if |chunks| == 0 {
      assert Join(chunks) + rest == rest;
      assert ReadString(rest, FormFeed) == Eof(rest);
    } else {
      var c, more := chunks[0], chunks[1..];
      var tail := Join(more) + rest;
      assert Join(chunks) + rest == c + tail;
      ReadFirstPage(c, tail);
      PagesOfJoin(more, rest);
      assert chunks == [c] + more;
    }
  }

  /** Reading from a complete page followed by anything yields that page. */
  lemma ReadFirstPage(c: string, tail: string)
    requires IsPage(c)
    ensures ReadString(c + tail, FormFeed) == Delimited(c, tail)
  {
    var n := |c| - 1;
    assert c + tail == c[..n] + [FormFeed] + tail;
    FirstDelimiter(c[..n], FormFeed, tail);
  }
}
